=== FILE: README.md ===
# uvalang-vscode analyzer client — Dafny model

This project models the pure logic inside the VS Code extension for the `uva` language
(`src/extension.ts`). The extension hands each focused `uva` document to a long-lived
`uvalang-analyzer --server` child process and turns the process's JSON reply into editor
artifacts. The model covers:

- **Result model** (`analysis.dfy`, module `Analysis`). `Location`, `Declaration` (with its
  references), `LinterWarning` and `AnalyzerResult`. The constructors are modelled with their
  quirks: `Location.length` defaults to 0, and `AnalyzerResult` ignores its arguments.
- **Reply conversion** (`json.dfy`, `codec.dfy`, modules `Json` and `Codec`). The `onData`
  handler of `analyse` takes the reply after `JSON.parse` (a `Json` value) and builds the
  result. `Codec.Encode` is the reply the analyzer sends for a result; it is the partner of the
  conversion in the round-trip lemma. `Codec.Settle` models the handler staying subscribed until
  the first output chunk that converts.
- **Request encoding** (`request.dfy`, module `Request`). The handoff name is the part of the
  document's file name after its last separator. The command text is the two paths joined by
  and terminated with `\n`. A character-by-character model of `split` recovers the paths.
- **Client** (`client.dfy`, module `Client`). `analyse` has a language gate, writes the handoff
  file, and guards the stdin write. `writeCommand` refuses when stdin is not writable.
  `throwErrorAtServer` calls the callback only when one is installed.
- **Projection** (`projection.dfy`, module `Projection`). Highlight ranges
  `[offset, offset + name length)` are produced for the focused file, in declaration order.
  Linter warnings are grouped into a map from file to diagnostics.
- **Definition lookup** (`definition.dfy`, module `Definition`). The lookup returns the first
  declaration named like the word under the cursor.

`optional.dfy` (module `Optional`) holds the `Option` type. It also holds `MapAll`, the
all-or-nothing conversion of a JSON array.

The host's effects are values in the model. The handoff file written, the text sent to stdin
and the messages passed to the error callback are collected in `Client.Effects`. The editor's
final state after a refresh is `Projection.View`. The child process is a `ServerState`: whether
it was launched, whether its stdin is writable, and whether a callback is installed. The
temporary directory and the path separator are an `Env` parameter. The analyzer's output is a
sequence of already-parsed chunks, where `None` means `JSON.parse` failed.

Behaviour of `src/extension.ts` that the model keeps as written:

- A declaration without a location makes the conversion throw (line 133), so the whole reply
  is dropped rather than that one declaration.
- Every diagnostic has severity Information (line 279).
- A warning's `type` is copied but never read, so a reply may leave it out (line 144).
- When a write is refused, the error callback fires twice: once with "stdin is not writable"
  (line 174) and once with "unable to write command" (line 110). Then the request is rejected.
  The handoff file has already been written by then (line 104).

## Model

| member | source | states |
|---|---|---|
| Analysis.NewLocation | src/extension.ts:19-25 | a location copies its four given fields and has length 0 unless a length is passed |
| Analysis.NewAnalyzerResult | src/extension.ts:56-59 | a new result is empty whatever declarations and warnings are passed to it |
| Optional.MapAll | src/extension.ts:132-145 | a list converts exactly when every element converts; the output keeps count and order, with element i converted from input i |
| Codec.DecodeLocation | src/extension.ts:133-142 | file, line, column and offset are copied; declaration and reference locations get length 0; warning locations keep the reported length, or 0 when it is absent |
| Codec.DecodeDeclaration | src/extension.ts:132-137 | the name is copied, the location is converted, and every reference is converted in order; a missing or malformed field fails the conversion |
| Codec.DecodeWarning | src/extension.ts:139-145 | the message is copied, the type is copied when present and stays absent when left out, and the location keeps its reported length |
| Codec.WarningWithoutTypeConverts | src/extension.ts:139-149 | a reply whose warning leaves out `type` still resolves, with that warning carrying no type |
| Codec.Decode | src/extension.ts:130-145 | a reply converts exactly when both arrays exist and every element converts; the result has the same number of declarations and warnings, in reply order, each converted from the matching reply element |
| Codec.DecodeIsNormalized | src/extension.ts:133-134 | every converted declaration and reference location has length 0 |
| Codec.DecodeKeepsWarningLength | src/extension.ts:142 | each converted warning has the length reported for it, or 0 when none was reported |
| Codec.DecodeEncode | src/extension.ts:130-145 | converting the analyzer's reply for any normalized result gives back exactly that result |
| Codec.Settle | src/extension.ts:116-150 | the request resolves with the first chunk that parses and converts, with no earlier chunk converting; it never settles when no chunk converts |
| Request.LastIndexOf | src/extension.ts:102 | the index is the last occurrence of the separator, or -1 exactly when the separator does not occur |
| Request.BaseName | src/extension.ts:102 | the handoff name is a suffix of the file name and contains no separator; it is preceded by a separator when shorter; it is the whole name when there is no separator |
| Request.SplitJoin | src/extension.ts:178 | splitting joined parts on the separator gives back the parts when no part contains it |
| Request.EncodeCommand | src/extension.ts:178 | the wire text ends with a newline, and splitting it on newlines gives back the command parts and an empty tail when no part contains a newline |
| Request.CommandRoundTrip | src/extension.ts:178 | the command text is path, newline, handoff path, newline; splitting it on newlines gives both paths and an empty tail |
| Client.RaiseError | src/extension.ts:166-170 | the message reaches the callback once when one is installed and not at all otherwise |
| Client.Writable | src/extension.ts:173 | stdin counts as writable only when a process was launched and its stdin is writable; without a process it never does |
| Client.WriteCommand | src/extension.ts:172-180 | the write succeeds exactly when stdin is writable; a refusal sends nothing and reports once (or never without a callback); success sends the encoded command once and reports nothing |
| Client.HandoffPath | src/extension.ts:102 | the handoff path is the temporary directory, a separator, then the part of the document's file name after its last separator (the whole name when it has none); it holds no newline when neither input does |
| Client.Analyse | src/extension.ts:89-113 | another language resolves to an empty result with no effects; a `uva` document writes its text to the handoff path (the write is taken to succeed); the request is rejected exactly when the write is refused |
| Client.WriteGuard | src/extension.ts:108-113 | a refused write sends nothing, rejects with "unable to write command", and reports both messages in order to an installed callback |
| Client.AcceptedRequest | src/extension.ts:100-108 | an accepted request reports nothing and sends one command that splits into the document path, the handoff path (temporary directory plus base name) and an empty tail |
| Client.AcceptedRequestSettles | src/extension.ts:115-163 | an accepted request resolves exactly when some output chunk converts, with the first such chunk's result, and otherwise stays unsettled |
| Codec.DecodeFromElements | src/extension.ts:130-149 | a reply whose two arrays convert element by element resolves with exactly those declarations and warnings, in that order |
| Projection.ReferenceRange | src/extension.ts:223-229 | a highlighted range starts at the occurrence's offset and ends the declared name's length later |
| Projection.DecorationRangesMembership | src/extension.ts:249-263 | a range is highlighted exactly when a declaration or one of its references lies in the focused file at that offset, the range spanning the declared name's length |
| Projection.DecorationRangesAppend | src/extension.ts:249-263 | the ranges of earlier declarations come before those of later ones |
| Projection.CollectRanges | src/extension.ts:247-263 | the collecting loop yields the reference ranges: declaration by declaration, its own range first, then its references' ranges, in the focused file only |
| Projection.AppendDeclarationRanges | src/extension.ts:252-262 | one declaration adds its own range (when in the focused file) then its references' ranges in the focused file, in order, to the ranges collected so far |
| Projection.DiagnosticsForMembership | src/extension.ts:270-281 | a diagnostic is listed for a file exactly when it comes from a warning in that file; every diagnostic has severity Information and a one-line range from the column over the reported length |
| Projection.ToDiagnostic | src/extension.ts:272-280 | a warning's diagnostic keeps its message, has severity Information, and spans one line from its column over its reported length |
| Projection.DiagnosticsForEmpty | src/extension.ts:282-291 | a file has no diagnostics exactly when none of the warnings is in it |
| Projection.EachWarningOnce | src/extension.ts:282-291 | a file's list holds exactly as many diagnostics as the file has warnings, and each warning's diagnostic sits right after those of the earlier warnings of its file |
| Projection.SlotsFollowWarningOrder | src/extension.ts:282-291 | two warnings of the same file take different slots of the file's list, the earlier warning first |
| Projection.GroupDiagnostics | src/extension.ts:268-292 | the map's keys are exactly the warning files, and each file's list holds that file's diagnostics in warning order |
| Projection.UpdateDecorations | src/extension.ts:239-300 | nothing happens without an editor; the view is replaced exactly when the analysis resolves, with the focused file's ranges and all files' grouped diagnostics |
| Projection.OtherLanguageClearsView | src/extension.ts:89-96 | focusing a document of another language touches no file and no process, and leaves no highlight and no diagnostic |
| Definition.TargetOf | src/extension.ts:210-213 | the target is the declaration's file, from its line and column to the same line at column plus the name's length |
| Definition.Lookup | src/extension.ts:208-219 | the result is the first declaration whose name is the word, and nothing exactly when no name matches |
| Definition.ProvideDefinition | src/extension.ts:197-205 | with no word under the cursor the answer is immediate and no analysis runs; otherwise the analysis effects are those of `analyse` |
| Definition.DefinitionIsFirstMatch | src/extension.ts:205-219 | a resolved analysis answers with the first declaration named like the word, or with nothing when no name matches |
| Definition.OtherLanguageHasNoDefinition | src/extension.ts:89-96 | a document of another language gets no definition and nothing reaches the analyzer |

## Left out

- Spawning the analyzer, the pid check and the `close` listener (src/extension.ts:69-87) are process plumbing. They are summarised by `ServerState.launched`.
- Restarting after 3000 ms and the Retry prompt in `activate` (src/extension.ts:305-357) are timer and UI behaviour and are not modelled.
- The stdout `error` listener that rejects the request (src/extension.ts:152-162) is not modelled. Neither are several requests in flight sharing one stdout stream. Both are asynchronous event behaviour.
- `JSON.parse`, `fs.writeFileSync` and `os.tmpdir` are foreign calls. Parsing is an input (`Option<Json>` per chunk), the file write is the `Effects.handoff` record, and the temporary directory is `Env.tmpDir`.
- Client.Analyse: the handoff write at src/extension.ts:104 is treated as always succeeding. In the source a failing `fs.writeFileSync` (no permission, no space, a directory in the way, a name too long) makes `analyse` throw before anything reaches stdin, with no error report and no promise, so `updateDecorations` and `provideDefinition` throw as well; the model instead records the handoff and goes on to write the command.
- The handoff path is `tmpDir + sep + base name`; the normalisation `path.join` performs (collapsing separators, an empty base name) is not modelled.
- Codec.Decode: a field that is missing or of the wrong JSON kind is a failed conversion: a missing or non-string `name` or `message`, a missing or non-string `file`, a missing or non-number `line`, `column` or `offset`, a `type` that is present but not a string, a warning `length` that is present but not a number (`null` included). The source would copy `undefined` or the ill-typed value and resolve, or would iterate a string in place of an array. Only `type`, which the client never reads, is read as optional.
- Codec.DecodeLocation: a missing or non-string `file`, a missing or non-number `line`, `column` or `offset`, or a warning `length` that is present but not a number fails the conversion, where the source copies `undefined` or the ill-typed value.
- Codec.DecodeDeclaration: a missing or non-string `name`, or a `references` field that is missing or not an array, fails the conversion, where the source copies `undefined` for the name or iterates whatever it is given.
- Codec.DecodeWarning: a missing or non-string `message`, or a `type` that is present but not a string, fails the conversion, where the source copies the value as it is.
- Codec.Settle: a chunk whose conversion throws is treated like one that does not parse: the handler stays subscribed. What the host does with the escaped exception is not modelled.
- JSON numbers are integers in the model. Fractional values are not modelled.
- `positionAt`, `setDecorations`, the diagnostic collection and decoration styles are editor API. Highlights stay as offset ranges and diagnostics as line/column ranges.
- Projection.ToDiagnostic: the checks of the editor's `Position` and `Range` constructors are not modelled. `Position` rejects a negative line or character, and `Range` swaps a start that lies after its end; with a negative reported length the model's range simply ends before it starts.
- Definition.TargetOf: the source builds the target with the editor's `Position` constructor (src/extension.ts:210-211), which throws on a negative line or character, so a first matching declaration with a negative line or column makes the definition promise reject. The model still answers with that target, and Definition.DefinitionIsFirstMatch promises it.
- Projection.UpdateDecorations: a warning with a negative line or column, or a negative end column, makes the editor's `Position` constructor throw inside the grouping loop (src/extension.ts:272-275). That happens after `setDecorations` and `diagnosticCollection.clear()` (src/extension.ts:265-267), so the source shows the new highlights and no diagnostics at all. The model's view still carries every grouped diagnostic.
- Projection.ReferenceRange: the name length is counted in Dafny characters, not in JavaScript's UTF-16 code units. The same holds for Definition.TargetOf and Projection.DecorationRanges.
- `Date.now` timing, `console.log`, and the `elapsed` field the client only logs carry no behaviour.

=== FILE: analysis.dfy ===
/** The analyzer's output as the client holds it: locations, declarations with their
    references, linter warnings, and the result that groups them (src/extension.ts:12-60). */
module Analysis {
  import opened Optional

  /** A place in a source file: `line`/`column` for the editor, `offset`/`length` into the text. */
  datatype Location = Location(file: string, line: int, column: int, offset: int, length: int)

  /** The `Location` constructor; `length` defaults to 0 when the caller omits it. */
  function NewLocation(file: string, line: int, column: int, offset: int, length: int := 0): (l: Location)
    ensures l.file == file && l.line == line && l.column == column && l.offset == offset
    ensures l.length == length
  {
    Location(file, line, column, offset, length)
  }

  /** A declared symbol, where it is declared, and every place it is used. */
  datatype Declaration = Declaration(name: string, location: Location, references: seq<Location>)

  /** A linter finding; `kind` holds the source's `type` property, which the client copies
      without ever reading it, so a reply may leave it out (`None`). */
  datatype LinterWarning = LinterWarning(message: string, kind: Option<string>, location: Location)

  datatype AnalyzerResult = AnalyzerResult(declarations: seq<Declaration>, linter: seq<LinterWarning>)

  const Empty := AnalyzerResult([], [])

  /** The `AnalyzerResult` constructor: it ignores both arguments, so every result starts empty. */
  function NewAnalyzerResult(declarations: seq<Declaration>, linter: seq<LinterWarning> := []): (r: AnalyzerResult)
    ensures r.declarations == [] && r.linter == []
  {
    AnalyzerResult([], [])
  }

  /** Every place a declaration occupies: its own location first, then its references in order. */
  function Sites(d: Declaration): (s: seq<Location>)
    ensures |s| == 1 + |d.references|
    ensures s[0] == d.location && s[1..] == d.references
  {
    [d.location] + d.references
  }

  /** The client never keeps a reported length for a declaration or a reference. */
  predicate NormalizedDeclaration(d: Declaration) {
    && d.location.length == 0
    && forall k :: 0 <= k < |d.references| ==> d.references[k].length == 0
  }

  predicate Normalized(r: AnalyzerResult) {
    forall i :: 0 <= i < |r.declarations| ==> NormalizedDeclaration(r.declarations[i])
  }
}

=== FILE: client.dfy ===
/** The analyzer client (`AnalyzerServer`, src/extension.ts:62-181) as seen by one request:
    the language gate, the handoff file, the write guard on the analyzer's stdin, and the
    pending request that the analyzer's output later settles. The child process itself is
    summarised by `ServerState`. */
module Client {
  import opened Optional
  import opened Json
  import opened Analysis
  import opened Codec
  import opened Request

  /** The only language the client analyses. */
  const LanguageId := "uva"

  const StdinNotWritable := "stdin is not writable"
  const UnableToWrite := "unable to write command"

  /** What the client knows of its child process: whether one was launched, whether its stdin
      currently accepts writes, and whether an `onError` callback is installed. */
  datatype ServerState = ServerState(launched: bool, stdinWritable: bool, hasErrorHandler: bool)

  /** `this.executable?.stdin?.writable`: false when no process was launched, whatever the
      last known state of its stdin. */
  predicate Writable(server: ServerState): (w: bool)
    ensures !server.launched ==> !w
    ensures w ==> server.stdinWritable
  {
    server.launched && server.stdinWritable
  }

  /** The host environment: the OS temporary directory and the platform's path separator. */
  datatype Env = Env(tmpDir: string, sep: char)

  datatype TextDocument = TextDocument(languageId: string, fileName: string, text: string)

  /** The handoff file: the document's current text written under the temporary directory. */
  datatype Handoff = Handoff(path: string, content: string)

  /** The observable side effects of a request: the handoff file written (if any), the text
      written to the analyzer's stdin, and the messages passed to the `onError` callback. */
  datatype Effects = Effects(handoff: Option<Handoff>, sent: seq<string>, errors: seq<string>)

  const NoEffects := Effects(None, [], [])

  /** How the promise returned by `analyse` ends up. */
  datatype Reply = Resolved(result: AnalyzerResult) | Rejected(message: string) | Unsettled

  datatype Outcome = Outcome(effects: Effects, reply: Reply)

  /** `throwErrorAtServer`: the messages delivered to the callback, which is invoked only when set. */
  function RaiseError(server: ServerState, message: string): (delivered: seq<string>)
    ensures server.hasErrorHandler ==> delivered == [message]
    ensures !server.hasErrorHandler ==> delivered == []
  {
    if server.hasErrorHandler then [message] else []
  }

  datatype WriteOutcome = WriteOutcome(ok: bool, sent: seq<string>, errors: seq<string>)

  /** `writeCommand`: refuses when stdin is not writable, reporting the refusal once through the
      callback (if any); otherwise writes the encoded command once. */
  function WriteCommand(server: ServerState, command: seq<string>): (w: WriteOutcome)
    ensures w.ok <==> Writable(server)
    ensures !w.ok ==> w.sent == [] && w.errors == RaiseError(server, StdinNotWritable)
    ensures !w.ok ==> |w.errors| == (if server.hasErrorHandler then 1 else 0)
    ensures w.ok ==> w.sent == [EncodeCommand(command)] && w.errors == []
  {
    if !Writable(server) then
      WriteOutcome(false, [], RaiseError(server, StdinNotWritable))
    else
      WriteOutcome(true, [EncodeCommand(command)], [])
  }

  /** The handoff path for a document: its base name inside the temporary directory. The part
      after the directory is the document's file name after its last separator (all of it when
      there is no separator), and the path
      holds no newline when neither the directory nor the file name does. */
  function HandoffPath(env: Env, fileName: string): (path: string)
    ensures |path| > |env.tmpDir|
    ensures path[..|env.tmpDir| + 1] == env.tmpDir + [env.sep]
    ensures var name := path[|env.tmpDir| + 1..];
      && env.sep !in name
      && |name| <= |fileName| && name == fileName[|fileName| - |name|..]
      && (|name| < |fileName| ==> fileName[|fileName| - |name| - 1] == env.sep)
      && (env.sep !in fileName ==> name == fileName)
    ensures '\n' !in fileName && '\n' !in env.tmpDir && env.sep != '\n' ==> '\n' !in path
  {
    NoNewlineInBaseName(fileName, env.sep);
    var path := env.tmpDir + [env.sep] + BaseName(fileName, env.sep);
    assert path[|env.tmpDir| + 1..] == BaseName(fileName, env.sep);
    assert path[..|env.tmpDir| + 1] == env.tmpDir + [env.sep];
    path
  }

  /** `analyse`: documents in another language resolve to an empty result at once. Otherwise
      the text is written to the handoff file, the command is written, and the request is
      rejected (after a second error report) when the write is refused, or settled by the
      first output chunk that converts into a result. */
  function Analyse(doc: TextDocument, server: ServerState, env: Env, chunks: seq<Option<Json>>): (a: Outcome)
    ensures doc.languageId != LanguageId ==> a == Outcome(NoEffects, Resolved(Empty))
    ensures doc.languageId == LanguageId ==>
      a.effects.handoff == Some(Handoff(HandoffPath(env, doc.fileName), doc.text))
    ensures a.reply.Rejected? <==> doc.languageId == LanguageId && !Writable(server)
  {
    if doc.languageId != LanguageId then
      Outcome(NoEffects, Resolved(NewAnalyzerResult([])))
    else
      var tmpFileName := HandoffPath(env, doc.fileName);
      var handoff := Some(Handoff(tmpFileName, doc.text));
      var command := [doc.fileName, tmpFileName];
      var w := WriteCommand(server, command);
      if !w.ok then
        Outcome(Effects(handoff, w.sent, w.errors + RaiseError(server, UnableToWrite)), Rejected(UnableToWrite))
      else
        match Settle(chunks)
        case Some(r) => Outcome(Effects(handoff, w.sent, w.errors), Resolved(r))
        case None => Outcome(Effects(handoff, w.sent, w.errors), Unsettled)
  }

  /** A refused write sends nothing, rejects the request, and reports twice to the callback
      (once from `writeCommand`, once from `analyse`), or not at all without a callback. */
  lemma WriteGuard(doc: TextDocument, server: ServerState, env: Env, chunks: seq<Option<Json>>)
    requires doc.languageId == LanguageId && !Writable(server)
    ensures var a := Analyse(doc, server, env, chunks);
      && a.effects.sent == []
      && a.reply == Rejected(UnableToWrite)
      && a.effects.errors == (if server.hasErrorHandler then [StdinNotWritable, UnableToWrite] else [])
  {
  }

  /** An accepted request writes exactly one command, whose lines are the document path and the
      handoff path (the document's base name inside the temporary directory), and reports nothing. */
  lemma AcceptedRequest(doc: TextDocument, server: ServerState, env: Env, chunks: seq<Option<Json>>)
    requires doc.languageId == LanguageId && Writable(server)
    requires '\n' !in doc.fileName && '\n' !in env.tmpDir && env.sep != '\n'
    ensures var a := Analyse(doc, server, env, chunks);
      && a.effects.errors == []
      && |a.effects.sent| == 1
      && Split(a.effects.sent[0], '\n') == [doc.fileName, a.effects.handoff.value.path, ""]
      && a.effects.handoff.value.path == env.tmpDir + [env.sep] + BaseName(doc.fileName, env.sep)
  {
    var tmp := HandoffPath(env, doc.fileName);
    var a := Analyse(doc, server, env, chunks);
    assert a.effects == Effects(Some(Handoff(tmp, doc.text)), [EncodeCommand([doc.fileName, tmp])], []);
    CommandRoundTrip(doc.fileName, tmp);
  }

  lemma NoNewlineInBaseName(fileName: string, sep: char)
    ensures '\n' !in fileName ==> '\n' !in BaseName(fileName, sep)
  {
    var b := BaseName(fileName, sep);
    forall k | 0 <= k < |b| ensures b[k] == fileName[|fileName| - |b| + k] {
    }
  }

  /** An accepted request resolves with the first converted output chunk, and never settles
      when no chunk converts. */
  lemma AcceptedRequestSettles(doc: TextDocument, server: ServerState, env: Env, chunks: seq<Option<Json>>)
    requires doc.languageId == LanguageId && Writable(server)
    ensures var a := Analyse(doc, server, env, chunks);
      && (a.reply.Resolved? <==> Settle(chunks).Some?)
      && (a.reply.Resolved? ==> Settle(chunks) == Some(a.reply.result))
      && (a.reply.Unsettled? <==> Settle(chunks).None?)
  {
  }
}

=== FILE: codec.dfy ===
/** Conversion of the analyzer's parsed JSON reply into an `AnalyzerResult`
    (the `onData` handler of `analyse`, src/extension.ts:116-150), the reply the analyzer
    sends for a result, and the settling of the pending request over successive reply chunks. */
module Codec {
  import opened Optional
  import opened Json
  import opened Analysis

  /** Reads `file`, `line`, `column` and `offset`; `length` is read only for warnings, and
      falls back to the constructor default 0 when the reply leaves it out. */
  function DecodeLocation(j: Json, withLength: bool): (r: Option<Location>)
    ensures r.Some? <==>
      && StringField(j, "file").Some?
      && NumberField(j, "line").Some?
      && NumberField(j, "column").Some?
      && NumberField(j, "offset").Some?
      && (withLength && Field(j, "length").Some? ==> Field(j, "length").value.JNumber?)
    ensures r.Some? ==>
      && r.value.file == StringField(j, "file").value
      && r.value.line == NumberField(j, "line").value
      && r.value.column == NumberField(j, "column").value
      && r.value.offset == NumberField(j, "offset").value
    ensures r.Some? && !withLength ==> r.value.length == 0
    ensures r.Some? && withLength ==>
      r.value.length == (if Field(j, "length").Some? then Field(j, "length").value.n else 0)
  {
    var file :- StringField(j, "file");
    var line :- NumberField(j, "line");
    var column :- NumberField(j, "column");
    var offset :- NumberField(j, "offset");
    if !withLength then
      Some(NewLocation(file, line, column, offset))
    else
      match Field(j, "length")
      case None => Some(NewLocation(file, line, column, offset))
      case Some(JNumber(n)) => Some(NewLocation(file, line, column, offset, n))
      case Some(_) => None
  }

  /** A declaration's or a reference's location: the reported length is never read. */
  function DecodeSite(j: Json): Option<Location> {
    DecodeLocation(j, false)
  }

  function DecodeDeclaration(j: Json): (r: Option<Declaration>)
    ensures r.Some? <==>
      && StringField(j, "name").Some?
      && Field(j, "location").Some? && DecodeSite(Field(j, "location").value).Some?
      && ArrayField(j, "references").Some?
      && forall k :: 0 <= k < |ArrayField(j, "references").value| ==>
           DecodeSite(ArrayField(j, "references").value[k]).Some?
    ensures r.Some? ==>
      && r.value.name == StringField(j, "name").value
      && DecodeSite(Field(j, "location").value) == Some(r.value.location)
      && |r.value.references| == |ArrayField(j, "references").value|
      && forall k :: 0 <= k < |r.value.references| ==>
           DecodeSite(ArrayField(j, "references").value[k]) == Some(r.value.references[k])
  {
    var name :- StringField(j, "name");
    var loc :- Field(j, "location");
    var location :- DecodeSite(loc);
    var refs :- ArrayField(j, "references");
    var references :- MapAll(refs, DecodeSite);
    Some(Declaration(name, location, references))
  }

  /** The optional `type` of a warning: absent stays absent, a string is kept, anything else fails. */
  function DecodeKind(t: Option<Json>): Option<Option<string>> {
    match t
    case None => Some(None)
    case Some(JString(s)) => Some(Some(s))
    case Some(_) => None
  }

  function DecodeWarning(j: Json): (r: Option<LinterWarning>)
    ensures r.Some? <==>
      && StringField(j, "message").Some?
      && (Field(j, "type").Some? ==> Field(j, "type").value.JString?)
      && Field(j, "location").Some? && DecodeLocation(Field(j, "location").value, true).Some?
    ensures r.Some? ==>
      && r.value.message == StringField(j, "message").value
      && (Field(j, "type").None? ==> r.value.kind.None?)
      && (Field(j, "type").Some? ==> r.value.kind == Some(Field(j, "type").value.s))
      && DecodeLocation(Field(j, "location").value, true) == Some(r.value.location)
  {
    var message :- StringField(j, "message");
    var kind :- DecodeKind(Field(j, "type"));
    var loc :- Field(j, "location");
    var location :- DecodeLocation(loc, true);
    Some(LinterWarning(message, kind, location))
  }

  /** Builds the result of one reply: a fresh (empty) result, then every declaration and
      every warning pushed in reply order. Any element that does not convert makes the
      handler throw, and no result is produced. */
  function Decode(j: Json): (r: Option<AnalyzerResult>)
    ensures r.Some? <==>
      && ArrayField(j, "declarations").Some?
      && (forall i :: 0 <= i < |ArrayField(j, "declarations").value| ==>
            DecodeDeclaration(ArrayField(j, "declarations").value[i]).Some?)
      && ArrayField(j, "linter").Some?
      && (forall i :: 0 <= i < |ArrayField(j, "linter").value| ==>
            DecodeWarning(ArrayField(j, "linter").value[i]).Some?)
    ensures r.Some? ==>
      && |r.value.declarations| == |ArrayField(j, "declarations").value|
      && (forall i :: 0 <= i < |r.value.declarations| ==>
            DecodeDeclaration(ArrayField(j, "declarations").value[i]) == Some(r.value.declarations[i]))
      && |r.value.linter| == |ArrayField(j, "linter").value|
      && (forall i :: 0 <= i < |r.value.linter| ==>
            DecodeWarning(ArrayField(j, "linter").value[i]) == Some(r.value.linter[i]))
  {
    var start := NewAnalyzerResult([]);
    var ds := ArrayField(j, "declarations");
    if ds.None? then None
    else
      var declarations := MapAll(ds.value, DecodeDeclaration);
      if declarations.None? then None
      else
        var ws := ArrayField(j, "linter");
        if ws.None? then None
        else
          var linter := MapAll(ws.value, DecodeWarning);
          if linter.None? then None
          else
            assert start.declarations + declarations.value == declarations.value;
            assert start.linter + linter.value == linter.value;
            Some(AnalyzerResult(start.declarations + declarations.value, start.linter + linter.value))
  }

  lemma DeclarationIsNormalized(j: Json, d: Declaration)
    requires DecodeDeclaration(j) == Some(d)
    ensures NormalizedDeclaration(d)
  {
    var refs := ArrayField(j, "references").value;
    forall k | 0 <= k < |d.references|
      ensures d.references[k].length == 0
    {
      assert DecodeSite(refs[k]) == Some(d.references[k]);
    }
  }

  /** Declaration and reference locations always come out with length 0, whatever the
      reply reported; so every decoded result is normalized. */
  lemma DecodeIsNormalized(j: Json, r: AnalyzerResult)
    requires Decode(j) == Some(r)
    ensures Normalized(r)
  {
    var ds := ArrayField(j, "declarations").value;
    forall i | 0 <= i < |r.declarations|
      ensures NormalizedDeclaration(r.declarations[i])
    {
      DeclarationIsNormalized(ds[i], r.declarations[i]);
    }
  }

  /** Warning locations keep the length the analyzer reported, and 0 when it reported none. */
  lemma DecodeKeepsWarningLength(j: Json, r: AnalyzerResult, i: int)
    requires Decode(j) == Some(r)
    requires 0 <= i < |r.linter|
    ensures var loc := Field(ArrayField(j, "linter").value[i], "location").value;
      r.linter[i].location.length == (if Field(loc, "length").Some? then Field(loc, "length").value.n else 0)
  {
    var w := ArrayField(j, "linter").value[i];
    assert DecodeWarning(w) == Some(r.linter[i]);
  }

  // The analyzer's side of the protocol: the reply it sends for a result.

  function EncodeLocation(l: Location): Json {
    JObject(map[
      "file" := JString(l.file),
      "line" := JNumber(l.line),
      "column" := JNumber(l.column),
      "offset" := JNumber(l.offset),
      "length" := JNumber(l.length)])
  }

  /** Encodes every element, in order. */
  function EncodeAll<T>(xs: seq<T>, f: T -> Json): (js: seq<Json>)
    ensures |js| == |xs|
    ensures forall i :: 0 <= i < |xs| ==> js[i] == f(xs[i])
  {
    if |xs| == 0 then [] else [f(xs[0])] + EncodeAll(xs[1..], f)
  }

  function EncodeDeclaration(d: Declaration): Json {
    JObject(map[
      "name" := JString(d.name),
      "location" := EncodeLocation(d.location),
      "references" := JArray(EncodeAll(d.references, EncodeLocation))])
  }

  /** A warning without a type is sent without a `type` property. */
  function EncodeWarning(w: LinterWarning): Json {
    var fields := map["message" := JString(w.message), "location" := EncodeLocation(w.location)];
    match w.kind
    case None => JObject(fields)
    case Some(kind) => JObject(fields["type" := JString(kind)])
  }

  /** The reply object: `elapsed` (only logged by the client), `declarations` and `linter`. */
  function Encode(r: AnalyzerResult, elapsed: int): Json {
    JObject(map[
      "elapsed" := JNumber(elapsed),
      "declarations" := JArray(EncodeAll(r.declarations, EncodeDeclaration)),
      "linter" := JArray(EncodeAll(r.linter, EncodeWarning))])
  }

  lemma SiteRoundTrip(l: Location)
    requires l.length == 0
    ensures DecodeSite(EncodeLocation(l)) == Some(l)
  {
    var j := EncodeLocation(l);
    assert StringField(j, "file") == Some(l.file);
    assert NumberField(j, "line") == Some(l.line);
    assert NumberField(j, "column") == Some(l.column);
    assert NumberField(j, "offset") == Some(l.offset);
  }

  lemma WarningLocationRoundTrip(l: Location)
    ensures DecodeLocation(EncodeLocation(l), true) == Some(l)
  {
    var j := EncodeLocation(l);
    assert StringField(j, "file") == Some(l.file);
    assert NumberField(j, "line") == Some(l.line);
    assert NumberField(j, "column") == Some(l.column);
    assert NumberField(j, "offset") == Some(l.offset);
    assert Field(j, "length") == Some(JNumber(l.length));
  }

  lemma DeclarationRoundTrip(d: Declaration)
    requires NormalizedDeclaration(d)
    ensures DecodeDeclaration(EncodeDeclaration(d)) == Some(d)
  {
    var j := EncodeDeclaration(d);
    var refs := EncodeAll(d.references, EncodeLocation);
    assert StringField(j, "name") == Some(d.name);
    assert Field(j, "location") == Some(EncodeLocation(d.location));
    SiteRoundTrip(d.location);
    assert ArrayField(j, "references") == Some(refs);
    forall k | 0 <= k < |refs|
      ensures DecodeSite(refs[k]) == Some(d.references[k])
    {
      SiteRoundTrip(d.references[k]);
    }
    var decoded := MapAll(refs, DecodeSite);
    assert decoded.value == d.references;
  }

  lemma WarningRoundTrip(w: LinterWarning)
    ensures DecodeWarning(EncodeWarning(w)) == Some(w)
  {
    var j := EncodeWarning(w);
    assert StringField(j, "message") == Some(w.message);
    assert DecodeKind(Field(j, "type")) == Some(w.kind);
    assert Field(j, "location") == Some(EncodeLocation(w.location));
    WarningLocationRoundTrip(w.location);
  }

  lemma DeclarationsRoundTrip(decls: seq<Declaration>)
    requires forall i :: 0 <= i < |decls| ==> NormalizedDeclaration(decls[i])
    ensures var ds := EncodeAll(decls, EncodeDeclaration);
      forall i :: 0 <= i < |ds| ==> DecodeDeclaration(ds[i]) == Some(decls[i])
  {
    var ds := EncodeAll(decls, EncodeDeclaration);
    forall i | 0 <= i < |ds|
      ensures DecodeDeclaration(ds[i]) == Some(decls[i])
    {
      DeclarationRoundTrip(decls[i]);
    }
  }

  lemma WarningsRoundTrip(linter: seq<LinterWarning>)
    ensures var ws := EncodeAll(linter, EncodeWarning);
      forall i :: 0 <= i < |ws| ==> DecodeWarning(ws[i]) == Some(linter[i])
  {
    var ws := EncodeAll(linter, EncodeWarning);
    forall i | 0 <= i < |ws|
      ensures DecodeWarning(ws[i]) == Some(linter[i])
    {
      WarningRoundTrip(linter[i]);
    }
  }

  /** A warning that leaves out `type` still converts, with no type, and the reply resolves. */
  lemma WarningWithoutTypeConverts(message: string, file: string, line: int, column: int, offset: int)
    ensures var loc := JObject(map["file" := JString(file), "line" := JNumber(line),
                                   "column" := JNumber(column), "offset" := JNumber(offset)]);
      var warning := JObject(map["message" := JString(message), "location" := loc]);
      var reply := JObject(map["declarations" := JArray([]), "linter" := JArray([warning])]);
      Decode(reply) == Some(AnalyzerResult([], [LinterWarning(message, None, Location(file, line, column, offset, 0))]))
  {
    var loc := JObject(map["file" := JString(file), "line" := JNumber(line),
                           "column" := JNumber(column), "offset" := JNumber(offset)]);
    var warning := JObject(map["message" := JString(message), "location" := loc]);
    var reply := JObject(map["declarations" := JArray([]), "linter" := JArray([warning])]);
    var w := LinterWarning(message, None, Location(file, line, column, offset, 0));
    assert StringField(loc, "file") == Some(file);
    assert NumberField(loc, "line") == Some(line);
    assert NumberField(loc, "column") == Some(column);
    assert NumberField(loc, "offset") == Some(offset);
    assert Field(loc, "length") == None;
    assert StringField(warning, "message") == Some(message);
    assert Field(warning, "type") == None;
    assert Field(warning, "location") == Some(loc);
    assert DecodeWarning(warning) == Some(w);
    assert ArrayField(reply, "declarations") == Some([]);
    assert ArrayField(reply, "linter") == Some([warning]);
    DecodeFromElements(reply, [], [w]);
  }

  /** A reply whose arrays convert element by element converts to exactly those elements. */
  lemma DecodeFromElements(j: Json, decls: seq<Declaration>, linter: seq<LinterWarning>)
    requires ArrayField(j, "declarations").Some? && ArrayField(j, "linter").Some?
    requires |ArrayField(j, "declarations").value| == |decls|
    requires forall i :: 0 <= i < |decls| ==> DecodeDeclaration(ArrayField(j, "declarations").value[i]) == Some(decls[i])
    requires |ArrayField(j, "linter").value| == |linter|
    requires forall i :: 0 <= i < |linter| ==> DecodeWarning(ArrayField(j, "linter").value[i]) == Some(linter[i])
    ensures Decode(j) == Some(AnalyzerResult(decls, linter))
  {
    var r := Decode(j);
    assert r.Some?;
    assert r.value.declarations == decls;
    assert r.value.linter == linter;
  }

  /** Every normalized result survives the trip through the analyzer's reply unchanged,
      in particular with the same declarations and warnings in the same order. */
  lemma DecodeEncode(r: AnalyzerResult, elapsed: int)
    requires Normalized(r)
    ensures Decode(Encode(r, elapsed)) == Some(r)
  {
    var j := Encode(r, elapsed);
    var ds := EncodeAll(r.declarations, EncodeDeclaration);
    var ws := EncodeAll(r.linter, EncodeWarning);
    assert ArrayField(j, "declarations") == Some(ds);
    assert ArrayField(j, "linter") == Some(ws);
    DeclarationsRoundTrip(r.declarations);
    WarningsRoundTrip(r.linter);
    DecodeFromElements(j, r.declarations, r.linter);
  }

  /** One chunk of the analyzer's output: `None` when `JSON.parse` rejects it. */
  function DecodeChunk(chunk: Option<Json>): Option<AnalyzerResult> {
    match chunk
    case None => None
    case Some(j) => Decode(j)
  }

  /** The value the pending request resolves with, given the output chunks that arrive after
      the command was written. A chunk that does not parse, or whose conversion throws, leaves
      the handler subscribed; the first chunk that converts resolves the request and
      unsubscribes. `None`: the request never settles. */
  function Settle(chunks: seq<Option<Json>>): (r: Option<AnalyzerResult>)
    ensures r.None? <==> forall k :: 0 <= k < |chunks| ==> DecodeChunk(chunks[k]).None?
    ensures r.Some? ==> exists k :: 0 <= k < |chunks| && DecodeChunk(chunks[k]) == r &&
                                  forall m :: 0 <= m < k ==> DecodeChunk(chunks[m]).None?
  {
    FirstSome(chunks, DecodeChunk)
  }
}

=== FILE: definition.dfy ===
/** "Go to definition" (`MyDefinitionProvider.provideDefinition`, src/extension.ts:183-221):
    the first declaration named like the word under the cursor. */
module Definition {
  import opened Optional
  import opened Json
  import opened Analysis
  import opened Client
  import opened Projection

  /** Where the editor jumps: the declaration's file and its name's span on its line. */
  datatype Target = Target(file: string, range: Range)

  function TargetOf(d: Declaration): (t: Target)
    ensures t.file == d.location.file
    ensures t.range.start == Position(d.location.line, d.location.column)
    ensures t.range.end == Position(d.location.line, d.location.column + |d.name|)
  {
    Target(d.location.file, Range(Position(d.location.line, d.location.column),
                                  Position(d.location.line, d.location.column + |d.name|)))
  }

  /** The lookup loop: the target of the first declaration whose name is `word`. */
  function Lookup(decls: seq<Declaration>, word: string): (r: Option<Target>)
    ensures r.None? <==> forall i :: 0 <= i < |decls| ==> decls[i].name != word
    ensures r.Some? ==> exists i :: 0 <= i < |decls| && decls[i].name == word && r.value == TargetOf(decls[i]) &&
                                    forall j :: 0 <= j < i ==> decls[j].name != word
  {
    if |decls| == 0 then None
    else if decls[0].name == word then Some(TargetOf(decls[0]))
    else Lookup(decls[1..], word)
  }

  /** How the provider answers: `null` at once when no word is under the cursor, otherwise a
      promise that resolves with the target (or `undefined`), is rejected, or never settles. */
  datatype Answer = NoWord | Settled(target: Option<Target>) | Failed(message: string) | Pending

  datatype Provided = Provided(effects: Effects, answer: Answer)

  /** `provideDefinition`; `word` is the text of the word range at the cursor, if there is one. */
  function ProvideDefinition(doc: TextDocument, word: Option<string>, server: ServerState, env: Env,
                             chunks: seq<Option<Json>>): (p: Provided)
    ensures word.None? ==> p == Provided(NoEffects, NoWord)
    ensures word.Some? ==> p.effects == Analyse(doc, server, env, chunks).effects
  {
    match word
    case None => Provided(NoEffects, NoWord)
    case Some(w) =>
      var a := Analyse(doc, server, env, chunks);
      match a.reply
      case Resolved(result) => Provided(a.effects, Settled(Lookup(result.declarations, w)))
      case Rejected(message) => Provided(a.effects, Failed(message))
      case Unsettled => Provided(a.effects, Pending)
  }

  /** Once the analysis resolves, the answer is the first declaration named `w`: its file, from
      its line and column over the name's length; and no answer when no name matches. */
  lemma DefinitionIsFirstMatch(doc: TextDocument, w: string, server: ServerState, env: Env,
                               chunks: seq<Option<Json>>, result: AnalyzerResult)
    requires Analyse(doc, server, env, chunks).reply == Resolved(result)
    ensures var p := ProvideDefinition(doc, Some(w), server, env, chunks);
      && p.answer.Settled?
      && (p.answer.target.None? <==> forall i :: 0 <= i < |result.declarations| ==> result.declarations[i].name != w)
      && (p.answer.target.Some? ==>
            exists i :: 0 <= i < |result.declarations| && result.declarations[i].name == w &&
                        (forall j :: 0 <= j < i ==> result.declarations[j].name != w) &&
                        p.answer.target.value == TargetOf(result.declarations[i]))
  {
    var p := ProvideDefinition(doc, Some(w), server, env, chunks);
    assert p.answer == Settled(Lookup(result.declarations, w));
  }

  /** A document of another language never yields a definition and never reaches the analyzer. */
  lemma OtherLanguageHasNoDefinition(doc: TextDocument, w: string, server: ServerState, env: Env,
                                     chunks: seq<Option<Json>>)
    requires doc.languageId != LanguageId
    ensures ProvideDefinition(doc, Some(w), server, env, chunks) == Provided(NoEffects, Settled(None))
  {
  }
}

=== FILE: json.dfy ===
/** The analyzer's reply after `JSON.parse`: a JSON value, with property reads that yield
    `None` where JavaScript yields `undefined`. */
module Json {
  import opened Optional

  /** JSON numbers are modelled as integers: the analyzer only sends line, column, offset,
      length and elapsed-time counts. */
  datatype Json =
    | JNull
    | JBool(b: bool)
    | JNumber(n: int)
    | JString(s: string)
    | JArray(items: seq<Json>)
    | JObject(fields: map<string, Json>)

  /** Reads property `key`; `None` when `j` is not an object or has no such property. */
  function Field(j: Json, key: string): (r: Option<Json>)
    ensures r.Some? <==> j.JObject? && key in j.fields
  {
    if j.JObject? && key in j.fields then Some(j.fields[key]) else None
  }

  /** Reads a property that must hold a string. */
  function StringField(j: Json, key: string): (r: Option<string>)
    ensures r.Some? <==> Field(j, key).Some? && Field(j, key).value.JString?
    ensures r.Some? ==> Field(j, key) == Some(JString(r.value))
  {
    match Field(j, key)
    case Some(JString(s)) => Some(s)
    case _ => None
  }

  /** Reads a property that must hold a number. */
  function NumberField(j: Json, key: string): (r: Option<int>)
    ensures r.Some? <==> Field(j, key).Some? && Field(j, key).value.JNumber?
    ensures r.Some? ==> Field(j, key) == Some(JNumber(r.value))
  {
    match Field(j, key)
    case Some(JNumber(n)) => Some(n)
    case _ => None
  }

  /** Reads a property that must hold an array. */
  function ArrayField(j: Json, key: string): (r: Option<seq<Json>>)
    ensures r.Some? <==> Field(j, key).Some? && Field(j, key).value.JArray?
    ensures r.Some? ==> Field(j, key) == Some(JArray(r.value))
  {
    match Field(j, key)
    case Some(JArray(items)) => Some(items)
    case _ => None
  }
}

=== FILE: optional.dfy ===
/** Failure-compatible optional values and the all-or-nothing element-wise conversion used by the
    reply decoder. */
module Optional {

  /** `None` stands for JavaScript's `undefined` (a missing property) and for a failed conversion. */
  datatype Option<+T> = None | Some(value: T) {

    predicate IsFailure() {
      None?
    }

    function PropagateFailure<U>(): Option<U>
      requires None?
    {
      None
    }

    function Extract(): T
      requires Some?
    {
      value
    }
  }

  /** Converts every element with `f`; one element that fails makes the whole conversion fail,
      as an exception thrown inside a `for ... of` loop abandons the loop. */
  function MapAll<A, B>(xs: seq<A>, f: A -> Option<B>): (r: Option<seq<B>>)
    ensures r.Some? <==> forall i :: 0 <= i < |xs| ==> f(xs[i]).Some?
    ensures r.Some? ==> |r.value| == |xs|
    ensures r.Some? ==> forall i :: 0 <= i < |xs| ==> f(xs[i]) == Some(r.value[i])
  {
    if |xs| == 0 then Some([])
    else
      match f(xs[0])
      case None => None
      case Some(y) =>
        match MapAll(xs[1..], f)
        case None => None
        case Some(ys) => Some([y] + ys)
  }

  /** The first element that converts with `f`, skipping those that do not; `None` when none does. */
  function FirstSome<A, B>(xs: seq<A>, f: A -> Option<B>): (r: Option<B>)
    ensures r.None? <==> forall k :: 0 <= k < |xs| ==> f(xs[k]).None?
    ensures r.Some? ==> exists k :: 0 <= k < |xs| && f(xs[k]) == r &&
                                    forall m :: 0 <= m < k ==> f(xs[m]).None?
  {
    if |xs| == 0 then None
    else
      match f(xs[0])
      case Some(y) => Some(y)
      case None =>
        var rest := FirstSome(xs[1..], f);
        assert forall k :: 1 <= k < |xs| ==> xs[k] == xs[1..][k - 1];
        rest
  }
}

=== FILE: projection.dfy ===
/** What the client hands the editor after an analysis (`referenceRange` and
    `updateDecorations`, src/extension.ts:223-301): highlight ranges for the focused document,
    and linter diagnostics grouped by file. Offsets stay offsets: translating them into
    positions is the editor's own indexing. */
module Projection {
  import opened Optional
  import opened Json
  import opened Analysis
  import opened Client

  /** The document span `[start, end)` in text offsets. */
  datatype OffsetRange = OffsetRange(start: int, end: int)

  datatype Position = Position(line: int, character: int)
  datatype Range = Range(start: Position, end: Position)
  datatype Severity = Error | Warning | Information | Hint
  datatype Diagnostic = Diagnostic(range: Range, message: string, severity: Severity)

  /** `referenceRange`: a symbol occurrence spans the length of the declared name. */
  function ReferenceRange(offset: int, name: string): (s: OffsetRange)
    ensures s.start == offset && s.end == offset + |name|
  {
    OffsetRange(offset, offset + |name|)
  }

  /** The ranges for those `sites` that lie in `file`, in order, each as long as `name`. */
  function RangesInFile(sites: seq<Location>, file: string, name: string): seq<OffsetRange> {
    if |sites| == 0 then []
    else
      (if sites[0].file == file then [ReferenceRange(sites[0].offset, name)] else [])
      + RangesInFile(sites[1..], file, name)
  }

  /** The reference definition of the highlighted ranges: declaration by declaration, the
      declaration's own range before those of its references, only those in `file`. */
  function DecorationRanges(decls: seq<Declaration>, file: string): seq<OffsetRange> {
    if |decls| == 0 then []
    else RangesInFile(Sites(decls[0]), file, decls[0].name) + DecorationRanges(decls[1..], file)
  }

  lemma {:induction false} RangesInFileAppend(a: seq<Location>, b: seq<Location>, file: string, name: string)
    ensures RangesInFile(a + b, file, name) == RangesInFile(a, file, name) + RangesInFile(b, file, name)
  {
    if |a| > 0 {
      assert (a + b)[0] == a[0];
      assert (a + b)[1..] == a[1..] + b;
      RangesInFileAppend(a[1..], b, file, name);
    } else {
      assert a + b == b;
    }
  }

  /** The ranges of consecutive declaration lists follow one another. */
  lemma {:induction false} DecorationRangesAppend(a: seq<Declaration>, b: seq<Declaration>, file: string)
    ensures DecorationRanges(a + b, file) == DecorationRanges(a, file) + DecorationRanges(b, file)
  {
    if |a| > 0 {
      assert (a + b)[0] == a[0];
      assert (a + b)[1..] == a[1..] + b;
      DecorationRangesAppend(a[1..], b, file);
    } else {
      assert a + b == b;
    }
  }

  lemma {:induction false} RangesInFileMembership(sites: seq<Location>, file: string, name: string, s: OffsetRange)
    ensures s in RangesInFile(sites, file, name) <==>
      exists k :: 0 <= k < |sites| && sites[k].file == file && s == ReferenceRange(sites[k].offset, name)
  {
    if |sites| > 0 {
      RangesInFileMembership(sites[1..], file, name, s);
      if s in RangesInFile(sites[1..], file, name) {
        var k :| 0 <= k < |sites[1..]| && sites[1..][k].file == file && s == ReferenceRange(sites[1..][k].offset, name);
        assert sites[k + 1] == sites[1..][k];
      }
      if exists k :: 0 <= k < |sites| && sites[k].file == file && s == ReferenceRange(sites[k].offset, name) {
        var k :| 0 <= k < |sites| && sites[k].file == file && s == ReferenceRange(sites[k].offset, name);
        if k > 0 {
          assert sites[1..][k - 1] == sites[k];
        }
      }
    }
  }

  /** A range is highlighted exactly when some declaration or one of its references lies in the
      focused file at that offset, the range being as long as the declared name. */
  lemma {:induction false} DecorationRangesMembership(decls: seq<Declaration>, file: string, s: OffsetRange)
    ensures s in DecorationRanges(decls, file) <==>
      exists i, k :: 0 <= i < |decls| && 0 <= k < |Sites(decls[i])| &&
                     Sites(decls[i])[k].file == file &&
                     s == ReferenceRange(Sites(decls[i])[k].offset, decls[i].name)
  {
    if |decls| > 0 {
      var d := decls[0];
      RangesInFileMembership(Sites(d), file, d.name, s);
      DecorationRangesMembership(decls[1..], file, s);
      if s in DecorationRanges(decls[1..], file) {
        var i, k :| 0 <= i < |decls[1..]| && 0 <= k < |Sites(decls[1..][i])| &&
                    Sites(decls[1..][i])[k].file == file &&
                    s == ReferenceRange(Sites(decls[1..][i])[k].offset, decls[1..][i].name);
        assert decls[i + 1] == decls[1..][i];
      }
      if exists i, k :: 0 <= i < |decls| && 0 <= k < |Sites(decls[i])| &&
                        Sites(decls[i])[k].file == file &&
                        s == ReferenceRange(Sites(decls[i])[k].offset, decls[i].name) {
        var i, k :| 0 <= i < |decls| && 0 <= k < |Sites(decls[i])| &&
                    Sites(decls[i])[k].file == file &&
                    s == ReferenceRange(Sites(decls[i])[k].offset, decls[i].name);
        if i > 0 {
          assert decls[1..][i - 1] == decls[i];
        }
      }
    }
  }

  /** The inner loop of `updateDecorations`: appends one declaration's ranges in the focused file. */
  method AppendDeclarationRanges(ranges: seq<OffsetRange>, d: Declaration, fileName: string)
    returns (out: seq<OffsetRange>)
    ensures out == ranges + RangesInFile(Sites(d), fileName, d.name)
  {
    out := ranges;
    if fileName == d.location.file {
      out := out + [ReferenceRange(d.location.offset, d.name)];
    }
    assert out == ranges + RangesInFile([d.location], fileName, d.name);
    for k := 0 to |d.references|
      invariant out == ranges + RangesInFile([d.location] + d.references[..k], fileName, d.name)
    {
      var reference := d.references[k];
      RangesInFileAppend([d.location] + d.references[..k], [reference], fileName, d.name);
      assert [d.location] + d.references[..k + 1] == [d.location] + d.references[..k] + [reference];
      if fileName == reference.file {
        out := out + [ReferenceRange(reference.offset, d.name)];
      }
    }
    assert [d.location] + d.references[..|d.references|] == Sites(d);
  }

  /** The loop of `updateDecorations` that collects the highlighted ranges. */
  method CollectRanges(result: AnalyzerResult, fileName: string) returns (ranges: seq<OffsetRange>)
    ensures ranges == DecorationRanges(result.declarations, fileName)
  {
    var decls := result.declarations;
    ranges := [];
    for i := 0 to |decls|
      invariant ranges == DecorationRanges(decls[..i], fileName)
    {
      ranges := AppendDeclarationRanges(ranges, decls[i], fileName);
      DecorationRangesAppend(decls[..i], [decls[i]], fileName);
      assert decls[..i + 1] == decls[..i] + [decls[i]];
    }
    assert decls[..|decls|] == decls;
  }

  /** The diagnostic for one warning: its message, severity Information, and a one-line range
      from its column over its reported length. */
  function ToDiagnostic(w: LinterWarning): (d: Diagnostic)
    ensures d.message == w.message && d.severity == Information
    ensures d.range.start == Position(w.location.line, w.location.column)
    ensures d.range.end.line == d.range.start.line
    ensures d.range.end.character - d.range.start.character == w.location.length
  {
    Diagnostic(
      Range(Position(w.location.line, w.location.column),
            Position(w.location.line, w.location.column + w.location.length)),
      w.message,
      Information)
  }

  /** The reference definition of one file's diagnostics: the warnings in that file, in order. */
  function DiagnosticsFor(linter: seq<LinterWarning>, file: string): seq<Diagnostic> {
    if |linter| == 0 then []
    else
      (if linter[0].location.file == file then [ToDiagnostic(linter[0])] else [])
      + DiagnosticsFor(linter[1..], file)
  }

  /** The files that have at least one warning. */
  function WarningFiles(linter: seq<LinterWarning>): set<string> {
    set i | 0 <= i < |linter| :: linter[i].location.file
  }

  /** A diagnostic is listed for `file` exactly when it is the diagnostic of a warning in `file`;
      so every listed diagnostic has severity Information and a one-line range. */
  lemma {:induction false} DiagnosticsForMembership(linter: seq<LinterWarning>, file: string, d: Diagnostic)
    ensures d in DiagnosticsFor(linter, file) <==>
      exists i :: 0 <= i < |linter| && linter[i].location.file == file && d == ToDiagnostic(linter[i])
    ensures d in DiagnosticsFor(linter, file) ==>
      d.severity == Information && d.range.start.line == d.range.end.line
  {
    if |linter| > 0 {
      DiagnosticsForMembership(linter[1..], file, d);
      if d in DiagnosticsFor(linter[1..], file) {
        var i :| 0 <= i < |linter[1..]| && linter[1..][i].location.file == file && d == ToDiagnostic(linter[1..][i]);
        assert linter[i + 1] == linter[1..][i];
      }
      if exists i :: 0 <= i < |linter| && linter[i].location.file == file && d == ToDiagnostic(linter[i]) {
        var i :| 0 <= i < |linter| && linter[i].location.file == file && d == ToDiagnostic(linter[i]);
        if i > 0 {
          assert linter[1..][i - 1] == linter[i];
        }
      }
    }
  }

  /** The number of warnings located in `file`. */
  function Count(linter: seq<LinterWarning>, file: string): nat {
    if |linter| == 0 then 0
    else (if linter[0].location.file == file then 1 else 0) + Count(linter[1..], file)
  }

  lemma {:induction false} DiagnosticsForAppend(a: seq<LinterWarning>, b: seq<LinterWarning>, file: string)
    ensures DiagnosticsFor(a + b, file) == DiagnosticsFor(a, file) + DiagnosticsFor(b, file)
    ensures Count(a + b, file) == Count(a, file) + Count(b, file)
  {
    if |a| > 0 {
      assert (a + b)[0] == a[0];
      assert (a + b)[1..] == a[1..] + b;
      DiagnosticsForAppend(a[1..], b, file);
    } else {
      assert a + b == b;
    }
  }

  lemma DiagnosticsForSnoc(linter: seq<LinterWarning>, w: LinterWarning, file: string)
    ensures DiagnosticsFor(linter + [w], file) ==
      DiagnosticsFor(linter, file) + (if w.location.file == file then [ToDiagnostic(w)] else [])
  {
    DiagnosticsForAppend(linter, [w], file);
    assert [w][1..] == [];
  }

  lemma {:induction false} DiagnosticsForLength(linter: seq<LinterWarning>, file: string)
    ensures |DiagnosticsFor(linter, file)| == Count(linter, file)
  {
    if |linter| > 0 {
      DiagnosticsForLength(linter[1..], file);
    }
  }

  /** Every warning has its own slot in its file's list: the file holds exactly as many
      diagnostics as it has warnings, and warning `i` sits after the diagnostics of the
      earlier warnings of the same file. */
  lemma EachWarningOnce(linter: seq<LinterWarning>, i: int)
    requires 0 <= i < |linter|
    ensures var file := linter[i].location.file;
      && |DiagnosticsFor(linter, file)| == Count(linter, file)
      && Count(linter[..i], file) < |DiagnosticsFor(linter, file)|
      && DiagnosticsFor(linter, file)[Count(linter[..i], file)] == ToDiagnostic(linter[i])
  {
    var file := linter[i].location.file;
    assert linter == linter[..i] + linter[i..];
    DiagnosticsForAppend(linter[..i], linter[i..], file);
    DiagnosticsForLength(linter, file);
    DiagnosticsForLength(linter[..i], file);
    assert DiagnosticsFor(linter[i..], file)[0] == ToDiagnostic(linter[i]);
  }

  /** Two warnings of the same file occupy different slots, in warning order. */
  lemma {:induction false} SlotsFollowWarningOrder(linter: seq<LinterWarning>, i: int, j: int)
    requires 0 <= i < j < |linter|
    requires linter[i].location.file == linter[j].location.file
    ensures Count(linter[..i], linter[i].location.file) < Count(linter[..j], linter[i].location.file)
  {
    var file := linter[i].location.file;
    assert linter[..j] == linter[..i] + linter[i..j];
    DiagnosticsForAppend(linter[..i], linter[i..j], file);
    assert linter[i..j][0] == linter[i];
  }

  /** Files without warnings get no diagnostics; each warning's file gets at least its own. */
  lemma {:induction false} DiagnosticsForEmpty(linter: seq<LinterWarning>, file: string)
    ensures DiagnosticsFor(linter, file) == [] <==> file !in WarningFiles(linter)
  {
    if |linter| > 0 {
      DiagnosticsForEmpty(linter[1..], file);
      assert WarningFiles(linter) == {linter[0].location.file} + WarningFiles(linter[1..]) by {
        forall f | f in WarningFiles(linter) ensures f in {linter[0].location.file} + WarningFiles(linter[1..]) {
          var i :| 0 <= i < |linter| && linter[i].location.file == f;
          if i > 0 {
            assert linter[1..][i - 1] == linter[i];
          }
        }
        forall f | f in WarningFiles(linter[1..]) ensures f in WarningFiles(linter) {
          var i :| 0 <= i < |linter[1..]| && linter[1..][i].location.file == f;
          assert linter[i + 1] == linter[1..][i];
        }
      }
    } else {
      assert WarningFiles(linter) == {};
    }
  }

  lemma WarningFilesSnoc(linter: seq<LinterWarning>, w: LinterWarning)
    ensures WarningFiles(linter + [w]) == WarningFiles(linter) + {w.location.file}
  {
    var s := linter + [w];
    forall f | f in WarningFiles(s) ensures f in WarningFiles(linter) + {w.location.file} {
      var j :| 0 <= j < |s| && s[j].location.file == f;
      if j < |linter| {
        assert linter[j] == s[j];
      }
    }
    forall f | f in WarningFiles(linter) ensures f in WarningFiles(s) {
      var j :| 0 <= j < |linter| && linter[j].location.file == f;
      assert s[j] == linter[j];
    }
    assert s[|linter|] == w;
  }

  /** `diagnostics` holds, for exactly the files with warnings, each file's diagnostics. */
  predicate Grouped(diagnostics: map<string, seq<Diagnostic>>, linter: seq<LinterWarning>) {
    && diagnostics.Keys == WarningFiles(linter)
    && forall file :: file in diagnostics ==> diagnostics[file] == DiagnosticsFor(linter, file)
  }

  /** One iteration of the grouping loop keeps the map grouped. */
  lemma GroupStep(diagnostics: map<string, seq<Diagnostic>>, linter: seq<LinterWarning>, w: LinterWarning)
    requires Grouped(diagnostics, linter)
    ensures var file := w.location.file;
      var list := if file in diagnostics then diagnostics[file] else [];
      Grouped(diagnostics[file := list + [ToDiagnostic(w)]], linter + [w])
  {
    var file := w.location.file;
    var list := if file in diagnostics then diagnostics[file] else [];
    var grouped := diagnostics[file := list + [ToDiagnostic(w)]];
    WarningFilesSnoc(linter, w);
    forall f | f in grouped
      ensures grouped[f] == DiagnosticsFor(linter + [w], f)
    {
      DiagnosticsForSnoc(linter, w, f);
      if f == file && file !in diagnostics {
        DiagnosticsForEmpty(linter, file);
      }
    }
  }

  /** The grouping loop of `updateDecorations`: one list per file that has warnings, holding
      that file's diagnostics in warning order. */
  method GroupDiagnostics(linter: seq<LinterWarning>) returns (diagnostics: map<string, seq<Diagnostic>>)
    ensures diagnostics.Keys == WarningFiles(linter)
    ensures forall file :: file in diagnostics ==> diagnostics[file] == DiagnosticsFor(linter, file)
  {
    diagnostics := map[];
    for i := 0 to |linter|
      invariant Grouped(diagnostics, linter[..i])
    {
      var warning := linter[i];
      var diagnostic := ToDiagnostic(warning);
      var file := warning.location.file;
      var list: seq<Diagnostic>;
      if file in diagnostics {
        list := diagnostics[file];
      } else {
        list := [];
      }
      list := list + [diagnostic];
      GroupStep(diagnostics, linter[..i], warning);
      assert linter[..i + 1] == linter[..i] + [warning];
      diagnostics := diagnostics[file := list];
    }
    assert linter[..|linter|] == linter;
  }

  /** What one refresh leaves in the editor: the focused document's highlights and the whole
      diagnostic collection (cleared, then filled file by file). */
  datatype View = View(ranges: seq<OffsetRange>, diagnostics: map<string, seq<Diagnostic>>)

  /** `updateDecorations`: nothing happens without an active editor; otherwise the focused
      document is analysed and, once the request resolves, highlights and diagnostics are
      recomputed from the result. A rejected or unsettled request changes nothing. */
  method UpdateDecorations(editor: Option<TextDocument>, server: ServerState, env: Env, chunks: seq<Option<Json>>)
    returns (effects: Effects, view: Option<View>)
    ensures editor.None? ==> effects == NoEffects && view.None?
    ensures editor.Some? ==> effects == Analyse(editor.value, server, env, chunks).effects
    ensures view.Some? <==> editor.Some? && Analyse(editor.value, server, env, chunks).reply.Resolved?
    ensures view.Some? ==>
      var result := Analyse(editor.value, server, env, chunks).reply.result;
      && view.value.ranges == DecorationRanges(result.declarations, editor.value.fileName)
      && view.value.diagnostics.Keys == WarningFiles(result.linter)
      && forall file :: file in view.value.diagnostics ==>
           view.value.diagnostics[file] == DiagnosticsFor(result.linter, file)
  {
    if editor.None? {
      return NoEffects, None;
    }
    var document := editor.value;
    var a := Analyse(document, server, env, chunks);
    effects := a.effects;
    if !a.reply.Resolved? {
      return effects, None;
    }
    var ranges := CollectRanges(a.reply.result, document.fileName);
    var diagnostics := GroupDiagnostics(a.reply.result.linter);
    view := Some(View(ranges, diagnostics));
  }

  /** Focusing a document of another language clears every highlight and every diagnostic,
      without touching the analyzer. */
  lemma OtherLanguageClearsView(doc: TextDocument, server: ServerState, env: Env, chunks: seq<Option<Json>>)
    requires doc.languageId != LanguageId
    ensures Analyse(doc, server, env, chunks).effects == NoEffects
    ensures DecorationRanges(Analyse(doc, server, env, chunks).reply.result.declarations, doc.fileName) == []
    ensures WarningFiles(Analyse(doc, server, env, chunks).reply.result.linter) == {}
  {
  }
}

=== FILE: request.dfy ===
/** The request line the client writes to the analyzer: the document path and the handoff
    path, newline-joined and newline-terminated (src/extension.ts:102-106, 178), and the
    handoff name derived from the document's file name. */
module Request {

  /** `String.prototype.lastIndexOf` for one character: -1 when `c` does not occur. */
  function LastIndexOf(s: string, c: char): (r: int)
    ensures -1 <= r < |s|
    ensures r >= 0 ==> s[r] == c
    ensures forall k :: r < k < |s| ==> s[k] != c
    ensures r == -1 <==> c !in s
  {
    if |s| == 0 then -1
    else if s[|s| - 1] == c then |s| - 1
    else LastIndexOf(s[..|s| - 1], c)
  }

  /** The handoff name: everything after the last separator of `fileName`. */
  function BaseName(fileName: string, sep: char): (b: string)
    ensures sep !in b
    ensures |b| <= |fileName| && b == fileName[|fileName| - |b|..]
    ensures |b| < |fileName| ==> fileName[|fileName| - |b| - 1] == sep
    ensures sep !in fileName ==> b == fileName
  {
    fileName[LastIndexOf(fileName, sep) + 1..]
  }

  /** `Array.prototype.join`: the parts with `sep` between consecutive ones. */
  function Join(parts: seq<string>, sep: char): string {
    if |parts| == 0 then ""
    else if |parts| == 1 then parts[0]
    else parts[0] + [sep] + Join(parts[1..], sep)
  }

  /** `String.prototype.split` on a one-character separator, defined character by character:
      every occurrence of `sep` ends one field, and there is always at least one field. */
  function Split(s: string, sep: char): (fields: seq<string>)
    ensures |fields| >= 1
  {
    if |s| == 0 then [""]
    else
      var rest := Split(s[1..], sep);
      if s[0] == sep then [""] + rest
      else [[s[0]] + rest[0]] + rest[1..]
  }

  /** The wire text of a command: the parts joined with newlines, plus a final newline. When no
      part contains a newline, splitting the text on newlines gives back the parts and an empty tail. */
  function EncodeCommand(command: seq<string>): (text: string)
    ensures |text| >= 1 && text[|text| - 1] == '\n'
    ensures |command| >= 1 && (forall i :: 0 <= i < |command| ==> '\n' !in command[i]) ==>
      Split(text, '\n') == command + [""]
  {
    EncodeCommandSplits(command);
    Join(command, '\n') + "\n"
  }

  lemma EncodeCommandSplits(command: seq<string>)
    ensures |command| >= 1 && (forall i :: 0 <= i < |command| ==> '\n' !in command[i]) ==>
      Split(Join(command, '\n') + "\n", '\n') == command + [""]
  {
    if |command| >= 1 && forall i :: 0 <= i < |command| ==> '\n' !in command[i] {
      JoinSnocEmpty(command, '\n');
      SplitJoin(command + [""], '\n');
    }
  }

  /** A field without the separator splits to itself. */
  lemma {:induction false} SplitPlain(a: string, sep: char)
    requires sep !in a
    ensures Split(a, sep) == [a]
  {
    if |a| > 0 {
      SplitPlain(a[1..], sep);
      assert [a[0]] + a[1..] == a;
    }
  }

  /** Splitting stops at the first separator. */
  lemma {:induction false} SplitAtSeparator(a: string, sep: char, b: string)
    requires sep !in a
    ensures Split(a + [sep] + b, sep) == [a] + Split(b, sep)
  {
    if |a| == 0 {
      assert a + [sep] + b == [sep] + b;
      assert ([sep] + b)[1..] == b;
    } else {
      var s := a + [sep] + b;
      assert s[1..] == a[1..] + [sep] + b;
      SplitAtSeparator(a[1..], sep, b);
      assert [a[0]] + a[1..] == a;
    }
  }

  /** Joining a trailing empty part appends one separator. */
  lemma {:induction false} JoinSnocEmpty(parts: seq<string>, sep: char)
    requires |parts| >= 1
    ensures Join(parts + [""], sep) == Join(parts, sep) + [sep]
  {
    if |parts| == 1 {
      assert (parts + [""])[1..] == [""];
    } else {
      assert (parts + [""])[1..] == parts[1..] + [""];
      JoinSnocEmpty(parts[1..], sep);
    }
  }

  /** `split` undoes `join` when no part contains the separator. */
  lemma {:induction false} SplitJoin(parts: seq<string>, sep: char)
    requires |parts| >= 1
    requires forall i :: 0 <= i < |parts| ==> sep !in parts[i]
    ensures Split(Join(parts, sep), sep) == parts
  {
    if |parts| == 1 {
      SplitPlain(parts[0], sep);
    } else {
      SplitJoin(parts[1..], sep);
      SplitAtSeparator(parts[0], sep, Join(parts[1..], sep));
      assert [parts[0]] + parts[1..] == parts;
    }
  }

  /** The request for a document: its path then the handoff path, each on its own line.
      Splitting the wire text on newlines gives back both paths followed by an empty tail. */
  lemma CommandRoundTrip(fileName: string, tmpFileName: string)
    requires '\n' !in fileName && '\n' !in tmpFileName
    ensures EncodeCommand([fileName, tmpFileName]) == fileName + "\n" + tmpFileName + "\n"
    ensures Split(EncodeCommand([fileName, tmpFileName]), '\n') == [fileName, tmpFileName, ""]
  {
    var parts := [fileName, tmpFileName];
    assert parts[1..] == [tmpFileName];
    assert Join(parts[1..], '\n') == tmpFileName;
    assert Join(parts, '\n') == fileName + "\n" + tmpFileName;
    assert forall i :: 0 <= i < |parts| ==> '\n' !in parts[i];
    assert parts + [""] == [fileName, tmpFileName, ""];
  }
}
